=== FILE: README.md ===
# macmon-mcp: a verified model of the monitoring server's pure core

macmon-mcp is a small tool server that reports operating-system metrics
(CPU, memory, disk, network, processes) as text, in answer to five named
tool requests. Almost all of `server.py` reads metrics through `psutil` or
talks to the tool transport. This project models the logic that is left once
those readings become plain input values:

- **Byte scaling** (`format_bytes`, module `Bytes`). The unit is found by
  dividing by 1024 across B, KB, MB, GB and TB, with PB as the fallback.
- **Uptime** (`format_uptime`, module `Uptime`). Elapsed seconds are split with
  Python's float floor-division and modulo into days, hours and minutes. One of
  three text shapes is then chosen. Module `Decimal` renders and reads back
  the whole numbers in that text.
- **Alerts** (`check_system_alerts` and the `check_alerts` branch of
  `handle_call_tool`, module `Alerts`). Four usage percentages are compared
  strictly against a fixed threshold table. The result is an ordered alert
  list and its summary.
- **Process ranking** (`get_top_processes`, module `Processes`). Missing fields
  take defaults and unreadable processes are skipped. The list is then stably
  sorted, descending by CPU or memory, and cut to `limit` numbered rows.
- **Network, CPU and status reports** (`get_network_stats`, `get_cpu_details`,
  `get_system_status`, modules `Network`, `CpuDetails`, `Status`). These cover
  the error and drop sums, the IPv4 address filter, the optional frequency
  lines and the per-core numbering.
- **Dispatch** (`handle_call_tool`, module `Dispatch`). It maps the five tool
  names to their handlers, fills argument defaults, and raises the
  unknown-tool error.

Floats are modelled as exact `real` numbers. Each report is a datatype that
holds the values the source interpolates into its text. The markdown, emoji
and decimal-place rendering of those values are left out.

Behaviour of the code worth knowing, all of it modelled as written:
- The day count is shown only when it is positive. A boot time 30 s in the
  future therefore reads "23h 59m": the hours and minutes are taken modulo a
  day and an hour (`Uptime.FutureBootExample`). Other negative elapsed
  times can read differently; -86370 s, for example, reads "0m"
  (`Uptime.FarFutureBootExample`).
- 90000 s renders as "1d 1h 0m" (`Uptime.DayExample`).
- A negative `limit` follows Python slicing and drops that many entries from
  the end of the ranking.

## Model

| member | source | states |
|---|---|---|
| Bytes.ScaleFrom | server.py:21-25 | from any unit on, the walk stops at the first unit whose scaled value is below 1024, or at PB; the value is the count divided by 1024 once per unit passed |
| Bytes.Scale | server.py:19-25 | the shown value is n / 1024^k for the first unit k with that value below 1024, or PB; below 1024^5 a non-negative count shows a value in [0, 1024); from 1024^5 on it is PB with n / 1024^5; a negative count stays in B unchanged |
| Bytes.ScalingIsUnique | server.py:21-24 | the first-unit-below-1024 description determines the unit and value: any scaling meeting it is the walk's result |
| Bytes.ScaleExamples | server.py:19-25 | 0 is 0.0 B, 1024 is 1.0 KB, 1536 is 1.5 KB, 1024^4 is 1.0 TB |
| Uptime.FloorDiv | server.py:30-32 | Python's float `x // d` for a positive divisor is the whole number q with q <= x / d < q + 1 |
| Uptime.Mod | server.py:31-32 | Python's float `x % d` for a positive divisor lies in [0, d) and completes `x == d * (x // d) + x % d` |
| Uptime.Decompose | server.py:29-32 | days = floor(s / 86400), hours = floor((s mod 86400) / 3600) in [0, 24), minutes = floor((s mod 3600) / 60) in [0, 60); fractions of a second never matter; 86400d + 3600h + 60m <= s < that + 60; non-negative s gives non-negative days |
| Uptime.Shown | server.py:34-39 | days, hours and minutes are shown when days > 0; otherwise hours and minutes when hours > 0; otherwise minutes alone; minutes are always the last field |
| Decimal.Show | server.py:35-39 | the decimal text of a whole number is non-empty and all digits, one digit iff below 10, and starts with 0 only for 0 itself |
| Decimal.ValueOfShow | server.py:35-39 | reading the decimal text back gives the number |
| Uptime.Join | server.py:35-39 | the joined fields start with a digit and end with the last field's unit letter |
| Uptime.JoinRoundTrip | server.py:35-39 | fields joined as "{n}{unit}" with single spaces read back as the same fields |
| Uptime.Text | server.py:27-39 | the uptime text shows exactly the fields the shape rule chooses (`Shown` of the decomposition), ends with the minutes, and reads back as the days (0 when there is no positive day count), hours and minutes of the elapsed time |
| Uptime.RenderRoundTrip | server.py:34-39 | reading the rendered text back gives the days (0 when omitted), hours and minutes, so no shape loses or confuses a field |
| Uptime.TextDeterminesParts | server.py:27-39 | for non-negative elapsed time the uptime text reads back as exactly the decomposition |
| Uptime.UnderAMinute | server.py:38-39 | under 60 s of uptime the text is "0m" |
| Uptime.DayExample | server.py:27-39 | 90000 s is "1d 1h 0m" |
| Uptime.HourExample | server.py:27-39 | 5400 s is "1h 30m" |
| Uptime.FutureBootExample | server.py:27-39 | a boot time 30 s in the future (-30 s) is "23h 59m" |
| Uptime.FarFutureBootExample | server.py:27-39 | a boot time 86370 s in the future (-86370 s) is "0m" |
| Alerts.Severity | server.py:47-79 | Swap is always medium; high iff CPU is above 90 or Memory or Disk above 95 |
| Alerts.Check | server.py:47-83 | one checking block appends at most one alert for its domain, only strictly above the medium threshold, high only strictly above the high threshold, carrying the measured value; the list stays in checking order and covers every domain checked so far |
| Alerts.CheckAlerts | server.py:41-85 | at most four alerts, in CPU, Memory, Disk, Swap order, at most one per domain; a domain has an alert iff its reading is strictly above its medium threshold; each alert's level follows the table and its value is the reading |
| Alerts.SeverityBands | server.py:47-83 | CPU is high iff > 90 and medium iff in (80, 90]; Memory high iff > 95 and medium iff in (85, 95]; Disk high iff > 95 and medium iff in (90, 95]; Swap above 75 is always medium |
| Alerts.AlertListIsUnique | server.py:41-85 | any list meeting the ordering, one-per-domain and threshold description equals the classifier's result |
| Alerts.OneAlertExample | server.py:41-85 | CPU 85% with the rest low gives exactly one alert, medium CPU |
| Alerts.FourAlertsExample | server.py:41-85 | readings 95/97/96/80 give high CPU, high Memory, high Disk and medium Swap, in that order |
| Alerts.Summarize | server.py:325-337 | no alerts gives the fixed all-normal answer, otherwise one line per alert in list order with the high marker iff the level is high |
| Alerts.SummaryRoundTrip | server.py:328-337 | the alert list can be read back from its summary, so lines are neither dropped, reordered nor mislabelled |
| Processes.Normalise | server.py:139-155 | an absent pid, name, cpu or memory percent becomes 0, "Unknown", 0.0, 0.0; present values are kept; memory in MB times 1024*1024 is the resident size, or 0 without memory info |
| Processes.Collect | server.py:134-159 | every readable process appears normalised, nothing else appears, and vanished processes are skipped |
| Processes.CollectOne | server.py:134-157 | a process that raised while being read contributes nothing; a read one contributes exactly its normalised entry |
| Processes.CollectAppend | server.py:134-159 | the entries of an enumeration are those of its parts, in enumeration order, duplicates kept |
| Processes.KeyOf | server.py:162-165 | "memory" sorts by memory percent and every other value sorts by CPU percent |
| Processes.Insert | server.py:162-165 | inserting into a descending list keeps it descending and adds exactly the one entry |
| Processes.SortDesc | server.py:162-165 | the result is descending by the key and a permutation of the input |
| Processes.SortDescIsStable | server.py:162-165 | for every key value, the entries with that key keep their enumeration order |
| Processes.StableSortIsUnique | server.py:162-165 | two descending lists that agree on the order within every key value are equal |
| Processes.StableSortCharacterised | server.py:162-165 | a list is the sort's result iff it is descending and keeps every key value's enumeration order |
| Processes.SliceEnd | server.py:169 | `xs[:limit]` keeps at most n entries; a non-negative limit keeps at most `limit`, and fewer only when all n are kept; a negative limit keeps entries only when exactly -limit are dropped from the end, and otherwise keeps none |
| Processes.TopProcesses | server.py:162-172 | the report carries the requested limit and ordering, as many rows as the slice keeps, numbered 1, 2, ... consecutively, descending by the key |
| Processes.TopIsPrefix | server.py:162-169 | the rows show a prefix of the stable descending order of all readable processes |
| Processes.TopAreLargest | server.py:162-172 | every process left out ranks no higher than any shown; the shown processes are among the readable ones; a limit of at least the process count shows every process exactly once |
| Processes.ZeroLimitShowsNone | server.py:168-172 | a limit of zero shows only the header |
| Network.AddressLines | server.py:196-198 | an interface's line for an address exists iff that address has the IPv4 family |
| Network.AddressLinesAppend | server.py:196-198 | one line per IPv4 address in address order, a repeated address included, and none for any other family |
| Network.Ipv4Lines | server.py:193-198 | a line (interface, address) is listed iff that interface has that address with family 2 |
| Network.Ipv4LinesAppend | server.py:195-198 | a one-interface table gives exactly that interface's address lines, and the lines of a concatenated table are the concatenated lines, so lines follow interface order and then address order, repeats included |
| Network.SomeLineIffIpv4 | server.py:193-201 | there is an IPv4 line iff some interface has an IPv4 address |
| Network.NetworkStats | server.py:176-203 | byte totals are scaled by the byte walk; errors are errin + errout and dropped is dropin + dropout; the active-interface section is present iff some interface has an IPv4 address, and then lists exactly the IPv4 lines |
| CpuDetails.FrequencyLines | server.py:216-224 | no frequency lines when the frequency is unavailable; otherwise exactly one current-frequency line first, followed by one maximum line iff the maximum is positive |
| CpuDetails.CpuDetails | server.py:205-236 | core counts and loads are passed through; every core appears once, numbered by its position |
| Status.SystemStatus | server.py:87-120 | the percentages, the CPU count and the three load averages pass through; every byte amount is scaled by the byte walk; the uptime is `format_uptime`'s text, which for non-negative elapsed time reads back as its decomposition |
| Dispatch.Lookup | server.py:307-340 | a name selects a tool iff it is one of the five names, and the tool has that name; any other name is the unknown-tool error |
| Dispatch.LookupByName | server.py:307-340 | each tool is found by its own name, so the five names select five different tools |
| Dispatch.Run | server.py:307-337 | each tool answers with its own kind of report, built from its own readings, with absent limit and sort replaced by 10 and "cpu" |
| Dispatch.Handle | server.py:301-340 | an unknown name fails with the unknown-tool error; each known name runs exactly its own handler, with limit 10 and sort "cpu" as defaults |
| Dispatch.DefaultProcessRequest | server.py:311-314 | without arguments the process tool shows the top ten by CPU |
| Dispatch.AlertToolAllNormal | server.py:325-329 | the alert tool answers with the all-normal text iff no domain is above its medium threshold |

## Left out

- OS readings (`psutil`), `time.sleep`, `datetime.now()` and `fromtimestamp` are not modelled. Their results are inputs: `Readings`, `StatusInputs`, the process enumeration, and the elapsed seconds.
- The boot-time `strftime` line, `handle_list_tools` schemas, the `Server`/`stdio_server` transport, `main`, the `--test` mode and exit handling are not modelled. They are I/O plumbing.
- Float rendering (`:.1f`, `:.2f`, `{:,}`, `str(float)`) is not modelled, nor are the emoji, markdown text and `sort_by.upper()` in the headers. Reports keep the numeric values and line structure. Alert messages are fixed by domain and value.
- Float rounding is not modelled: byte scaling and uptime use exact reals. The repeated division n / 1024 / 1024 ... equals n / 1024^k exactly.
- Processes.Normalise: a pid or name key present with the value None is treated like an absent key. The source only defaults a missing key there.
- Processes.Collect: every exception during a process read is modelled as a `Vanished` step that is skipped. The model does not say which exception occurred.
- Dispatch.Handle: argument values of the wrong type are not modelled. A string `limit`, for example, would raise in the source. An absent arguments dict and an empty one both mean defaults, as in the source. An explicit `"limit": null` is treated like an absent key and gives 10, while the source passes `None` on, so `processes[:None]` would show every process under the header "Top None". Likewise an explicit `"sort_by": null` sorts by CPU here, while the source passes `None` on and fails at `sort_by.upper()`.

=== FILE: alerts.dfy ===
/** Threshold alerts (`check_system_alerts`) and the alert summary the
    `check_alerts` tool returns. The four usage percentages are inputs;
    sampling them from the operating system is not modelled. */
module Alerts {

  /** The four monitored domains, in the order they are checked. */
  datatype Domain = Cpu | Memory | Disk | Swap {

    /** Position in the checking order. */
    function Rank(): (k: nat)
      ensures k < 4
    {
      match this
      case Cpu => 0
      case Memory => 1
      case Disk => 2
      case Swap => 3
    }
  }

  datatype Level = Medium | High

  /** One reading of the four usage percentages. */
  datatype Sample = Sample(cpu: real, memory: real, disk: real, swap: real) {

    function Reading(d: Domain): real {
      match d
      case Cpu => cpu
      case Memory => memory
      case Disk => disk
      case Swap => swap
    }
  }

  /** An alert: its severity, its domain and the measured percentage. The
      message text "<type> usage is <value>%" is fixed by the domain and the
      value. */
  datatype Alert = Alert(level: Level, domain: Domain, value: real)

  /** The threshold table: a domain alerts strictly above its medium
      threshold. */
  function MediumThreshold(d: Domain): real {
    match d
    case Cpu => 80.0
    case Memory => 85.0
    case Disk => 90.0
    case Swap => 75.0
  }

  /** The high threshold, which Swap does not have. */
  function HighThreshold(d: Domain): (t: real)
    requires d != Swap
  {
    match d
    case Cpu => 90.0
    case Memory => 95.0
    case Disk => 95.0
  }

  /** The severity the table gives to a reading above the medium threshold. */
  function Severity(d: Domain, v: real): (l: Level)
    ensures d == Swap ==> l == Medium
    ensures l == High <==> (d == Cpu && v > 90.0) || (d == Memory && v > 95.0) || (d == Disk && v > 95.0)
  {
    if d != Swap && v > HighThreshold(d) then High else Medium
  }

  /** `a` is the alert the table raises for reading `v` of domain `d`. */
  ghost predicate Raises(d: Domain, v: real, a: Alert) {
    v > MediumThreshold(d) && a == Alert(Severity(d, v), d, v)
  }

  /** `alerts` is a correct answer for sample `s`: in checking order, at most
      one per domain, each one the table's alert for its domain, and every
      domain above its medium threshold represented. */
  ghost predicate IsAlertListFor(s: Sample, alerts: seq<Alert>) {
    && RankIncreasing(alerts)
    && (forall i :: 0 <= i < |alerts| ==> Raises(alerts[i].domain, s.Reading(alerts[i].domain), alerts[i]))
    && (forall d: Domain :: s.Reading(d) > MediumThreshold(d) ==> d in DomainsOf(alerts))
  }

  /** The domains a list of alerts speaks about. */
  function DomainsOf(alerts: seq<Alert>): set<Domain> {
    set i | 0 <= i < |alerts| :: alerts[i].domain
  }

  /** `check_system_alerts` on a given sample: CPU, then Memory, then Disk,
      then Swap, each compared strictly against its thresholds. */
  function CheckAlerts(s: Sample): (alerts: seq<Alert>)
    ensures |alerts| <= 4
    ensures IsAlertListFor(s, alerts)
  {
    var alerts := Check(s, Check(s, Check(s, Check(s, [], Cpu), Memory), Disk), Swap);
    assert forall d: Domain :: d.Rank() < 4;
    alerts
  }

  /** `alerts` is correct for `s` over the domains ranked below `k`. */
  ghost predicate CorrectBelow(s: Sample, alerts: seq<Alert>, k: nat) {
    && |alerts| <= k
    && RankIncreasing(alerts)
    && (forall i :: 0 <= i < |alerts| ==> alerts[i].domain.Rank() < k)
    && (forall i :: 0 <= i < |alerts| ==> Raises(alerts[i].domain, s.Reading(alerts[i].domain), alerts[i]))
    && (forall d: Domain :: d.Rank() < k && s.Reading(d) > MediumThreshold(d) ==> d in DomainsOf(alerts))
  }

  /** One block of `check_system_alerts`: appends the alert of domain `d`
      when its reading is strictly above the medium threshold, with the high
      level when it is also strictly above the high threshold. Appending
      keeps the list correct one domain further. */
  function Check(s: Sample, before: seq<Alert>, d: Domain): (after: seq<Alert>)
    requires CorrectBelow(s, before, d.Rank())
    ensures CorrectBelow(s, after, d.Rank() + 1)
  {
    var v := s.Reading(d);
    var after := if v > MediumThreshold(d) then before + [Alert(Severity(d, v), d, v)] else before;
    assert forall e: Domain :: e.Rank() < d.Rank() + 1 && s.Reading(e) > MediumThreshold(e) ==> e in DomainsOf(after) by {
      forall e: Domain | e.Rank() < d.Rank() + 1 && s.Reading(e) > MediumThreshold(e)
        ensures e in DomainsOf(after)
      {
        if e == d {
          assert after[|before|].domain == e;
        } else {
          var i :| 0 <= i < |before| && before[i].domain == e;
          assert after[i].domain == e;
        }
      }
    }
    assert CorrectBelow(s, after, d.Rank() + 1);
    after
  }

  /** The severity bands per domain, as the source's strict comparisons
      draw them: CPU is high above 90 and medium in (80, 90]; Memory high
      above 95 and medium in (85, 95]; Disk high above 95 and medium in
      (90, 95]; Swap above 75 is always medium. */
  lemma SeverityBands(s: Sample, a: Alert)
    requires a in CheckAlerts(s)
    ensures a.value == s.Reading(a.domain)
    ensures a.domain == Cpu ==> (a.level == High <==> a.value > 90.0) && (a.level == Medium <==> 80.0 < a.value <= 90.0)
    ensures a.domain == Memory ==> (a.level == High <==> a.value > 95.0) && (a.level == Medium <==> 85.0 < a.value <= 95.0)
    ensures a.domain == Disk ==> (a.level == High <==> a.value > 95.0) && (a.level == Medium <==> 90.0 < a.value <= 95.0)
    ensures a.domain == Swap ==> a.level == Medium && a.value > 75.0
  {
    var alerts := CheckAlerts(s);
    var i :| 0 <= i < |alerts| && alerts[i] == a;
    assert Raises(a.domain, s.Reading(a.domain), a);
  }

  ghost predicate RankIncreasing(alerts: seq<Alert>) {
    forall i, j :: 0 <= i < j < |alerts| ==> alerts[i].domain.Rank() < alerts[j].domain.Rank()
  }

  /** Two lists in strictly increasing checking order holding the same
      alerts are the same list. */
  lemma {:induction false} RankedListsEqual(a: seq<Alert>, b: seq<Alert>)
    requires RankIncreasing(a) && RankIncreasing(b)
    requires forall x :: x in a <==> x in b
    ensures a == b
  {
    if |a| > 0 && |b| > 0 {
      var x, y := a[0], b[0];
      assert y in a && x in b;
      var i :| 0 <= i < |a| && a[i] == y;
      var j :| 0 <= j < |b| && b[j] == x;
      assert x.domain.Rank() <= y.domain.Rank() && y.domain.Rank() <= x.domain.Rank();
      assert i == 0 && j == 0;
      forall z ensures z in a[1..] <==> z in b[1..] {
        if z in a[1..] {
          var k :| 1 <= k < |a| && a[k] == z;
          assert z in b;
          var l :| 0 <= l < |b| && b[l] == z;
          assert l != 0;
        }
        if z in b[1..] {
          var k :| 1 <= k < |b| && b[k] == z;
          assert z in a;
          var l :| 0 <= l < |a| && a[l] == z;
          assert l != 0;
        }
      }
      RankedListsEqual(a[1..], b[1..]);
      assert a == [x] + a[1..] && b == [y] + b[1..];
    } else if |a| > 0 {
      HeadIsMember(a);
      assert false;
    } else if |b| > 0 {
      HeadIsMember(b);
      assert false;
    }
  }

  lemma HeadIsMember(a: seq<Alert>)
    ensures |a| > 0 ==> a[0] in a
  {
  }

  /** The threshold table determines the answer: any list meeting the
      description is exactly what `check_system_alerts` returns. */
  lemma AlertListIsUnique(s: Sample, alerts: seq<Alert>)
    requires IsAlertListFor(s, alerts)
    ensures alerts == CheckAlerts(s)
  {
    var r := CheckAlerts(s);
    forall x ensures x in alerts <==> x in r {
      if x in alerts {
        var d := x.domain;
        var i :| 0 <= i < |r| && r[i].domain == d;
        assert Raises(d, s.Reading(d), r[i]);
      }
      if x in r {
        var d := x.domain;
        var i :| 0 <= i < |alerts| && alerts[i].domain == d;
        assert Raises(d, s.Reading(d), alerts[i]);
      }
    }
    RankedListsEqual(alerts, r);
  }

  /** Worked sample: a CPU at 85% alone gives one medium CPU alert. */
  lemma OneAlertExample(s: Sample)
    requires s == Sample(85.0, 50.0, 50.0, 10.0)
    ensures CheckAlerts(s) == [Alert(Medium, Cpu, 85.0)]
  {
    var one := [Alert(Medium, Cpu, 85.0)];
    assert DomainsOf(one) == {Cpu} by {
      assert one[0].domain == Cpu;
    }
    AlertListIsUnique(s, one);
  }

  /** Worked sample: 95, 97, 96 and 80 give four alerts, high for CPU,
      Memory and Disk and medium for Swap, in that order. */
  lemma FourAlertsExample(s: Sample)
    requires s == Sample(95.0, 97.0, 96.0, 80.0)
    ensures CheckAlerts(s) ==
      [Alert(High, Cpu, 95.0), Alert(High, Memory, 97.0), Alert(High, Disk, 96.0), Alert(Medium, Swap, 80.0)]
  {
    var four := [Alert(High, Cpu, 95.0), Alert(High, Memory, 97.0), Alert(High, Disk, 96.0), Alert(Medium, Swap, 80.0)];
    assert DomainsOf(four) == {Cpu, Memory, Disk, Swap} by {
      assert four[0].domain == Cpu && four[1].domain == Memory && four[2].domain == Disk && four[3].domain == Swap;
    }
    AlertListIsUnique(s, four);
  }

  /** One line of the alert report: the high marker or the medium marker,
      then the domain and its message. */
  datatype Line = Line(highMarker: bool, domain: Domain, value: real)

  /** The text `check_alerts` returns: the fixed "all systems normal" text when
      there are no alerts, else a header followed by one line per alert. */
  datatype Summary = AllNormal | Report(lines: seq<Line>)

  /** The alert-summary branch of the tool handler. */
  function Summarize(alerts: seq<Alert>): (r: Summary)
    ensures r.AllNormal? <==> |alerts| == 0
    ensures r.Report? ==> |r.lines| == |alerts|
    ensures r.Report? ==> forall i :: 0 <= i < |alerts| ==>
      (r.lines[i].highMarker <==> alerts[i].level == High) && r.lines[i].domain == alerts[i].domain
  {
    if |alerts| == 0 then AllNormal
    else Report(seq(|alerts|, i requires 0 <= i < |alerts| =>
      Line(alerts[i].level == High, alerts[i].domain, alerts[i].value)))
  }

  /** Reads the alerts back from a summary: the marker gives the level. */
  function Recover(s: Summary): seq<Alert> {
    match s
    case AllNormal => []
    case Report(lines) =>
      seq(|lines|, i requires 0 <= i < |lines| =>
        Alert(if lines[i].highMarker then High else Medium, lines[i].domain, lines[i].value))
  }

  /** The summary loses nothing: reading it back gives the alert list, in
      order. */
  lemma SummaryRoundTrip(alerts: seq<Alert>)
    ensures Recover(Summarize(alerts)) == alerts
  {
  }
}

=== FILE: bytes.dfy ===
/** Human-readable byte counts (`format_bytes`): repeated division by 1024
    across the units B, KB, MB, GB, TB, with PB as the fallback. */
module Bytes {

  /** The six units, in the order the scaling walks through them. */
  datatype Unit = B | KB | MB | GB | TB | PB {

    /** Position of the unit in the walk: B is 0, PB is 5. */
    function Index(): (k: nat)
      ensures k <= 5
    {
      match this
      case B => 0
      case KB => 1
      case MB => 2
      case GB => 3
      case TB => 4
      case PB => 5
    }
  }

  /** The unit at position `k` of the walk. */
  function UnitAt(k: nat): (u: Unit)
    requires k <= 5
    ensures u.Index() == k
  {
    if k == 0 then B
    else if k == 1 then KB
    else if k == 2 then MB
    else if k == 3 then GB
    else if k == 4 then TB
    else PB
  }

  /** 1024 to the power `k`, for the six positions of the walk. */
  function Pow1024(k: nat): (p: real)
    requires k <= 5
    ensures p >= 1.0
  {
    if k == 0 then 1.0
    else if k == 1 then 1024.0
    else if k == 2 then 1048576.0
    else if k == 3 then 1073741824.0
    else if k == 4 then 1099511627776.0
    else 1125899906842624.0
  }

  /** A scaled byte count: the number shown and its unit. The one-decimal
      rendering of `value` is not modelled. */
  datatype Scaled = Scaled(value: real, unit: Unit)

  /** `r` is what the walk yields for `n`: the first unit whose scaled value
      is below 1024, or PB when there is none, with the value divided by
      1024 once per unit stepped over. */
  ghost predicate IsScalingOf(n: real, r: Scaled) {
    && r.value == n / Pow1024(r.unit.Index())
    && (r.unit != PB ==> r.value < 1024.0)
    && forall j: nat :: j < r.unit.Index() ==> n / Pow1024(j) >= 1024.0
  }

  /** The walk from position `k` on: stop at `k` when the value there is below
      1024 or when `k` is PB, otherwise divide once more. */
  function ScaleFrom(n: real, k: nat): (r: Scaled)
    requires k <= 5
    requires forall j: nat :: j < k ==> n / Pow1024(j) >= 1024.0
    ensures k <= r.unit.Index()
    ensures IsScalingOf(n, r)
    decreases 5 - k
  {
    if k == 5 || n / Pow1024(k) < 1024.0 then Scaled(n / Pow1024(k), UnitAt(k))
    else ScaleFrom(n, k + 1)
  }

  /** `format_bytes(n)` without the text rendering. Below 1024^5 a
      non-negative count is shown as a number in [0, 1024); from 1024^5 on it
      is shown in PB; a negative count is left in bytes unchanged. */
  function Scale(n: real): (r: Scaled)
    ensures IsScalingOf(n, r)
    ensures 0.0 <= n < Pow1024(5) ==> r.unit != PB && 0.0 <= r.value < 1024.0
    ensures n >= Pow1024(5) ==> r == Scaled(n / Pow1024(5), PB)
    ensures n < 0.0 ==> r == Scaled(n, B)
  {
    ScaleFrom(n, 0)
  }

  /** The walk's outcome is the only scaling that satisfies the description:
      the unit is the FIRST one at which the value drops below 1024. */
  lemma ScalingIsUnique(n: real, r: Scaled)
    requires IsScalingOf(n, r)
    ensures r == Scale(n)
  {
  }

  /** Worked values: 0 is 0.0B, 1024 is 1.0KB, 1536 is 1.5KB, 1024^4 is 1.0TB. */
  lemma ScaleExamples()
    ensures Scale(0.0) == Scaled(0.0, B)
    ensures Scale(1024.0) == Scaled(1.0, KB)
    ensures Scale(1536.0) == Scaled(1.5, KB)
    ensures Scale(1099511627776.0) == Scaled(1.0, TB)
  {
    ScalingIsUnique(0.0, Scaled(0.0, B));
    ScalingIsUnique(1024.0, Scaled(1.0, KB));
    ScalingIsUnique(1536.0, Scaled(1.5, KB));
    var t := Scaled(1.0, TB);
    assert forall j: nat :: j < 4 ==> 1099511627776.0 / Pow1024(j) >= 1024.0 by {
      forall j: nat | j < 4 ensures 1099511627776.0 / Pow1024(j) >= 1024.0 {
        assert j == 0 || j == 1 || j == 2 || j == 3;
      }
    }
    ScalingIsUnique(1099511627776.0, t);
  }
}

=== FILE: cpu.dfy ===
/** The CPU report (`get_cpu_details`): core counts, the optional frequency
    lines, per-core usage numbered by position, and the load averages. The
    readings are inputs. */
module CpuDetails {
  import opened Wrappers

  /** Current and maximum frequency in MHz. */
  datatype Frequency = Frequency(current: real, max: real)

  /** The readings the report is built from. A core count the provider
      cannot determine is absent (shown as "None"); the frequency is absent
      when the provider returns nothing or raises. */
  datatype CpuInputs = CpuInputs(
    perCore: seq<real>,
    physicalCores: Option<nat>,
    logicalCores: Option<nat>,
    frequency: Option<Frequency>,
    load1: real, load5: real, load15: real)

  datatype FrequencyLine = CurrentLine(mhz: real) | MaxLine(mhz: real)

  /** One "Core i: p%" line. */
  datatype CoreLine = CoreLine(index: nat, percent: real)

  datatype CpuReport = CpuReport(
    physicalCores: Option<nat>,
    logicalCores: Option<nat>,
    frequencyLines: seq<FrequencyLine>,
    cores: seq<CoreLine>,
    load1: real, load5: real, load15: real)

  /** The frequency subsection: nothing when the frequency is unavailable,
      otherwise the current frequency, followed by the maximum only when it
      is positive. */
  function FrequencyLines(f: Option<Frequency>): (r: seq<FrequencyLine>)
    ensures |r| <= 2
    ensures r == [] <==> f.None?
    ensures f.Some? ==> |r| == (if f.value.max > 0.0 then 2 else 1)
    ensures f.Some? ==> r[0] == CurrentLine(f.value.current)
    ensures (exists m :: MaxLine(m) in r) <==> f.Some? && f.value.max > 0.0
    ensures forall m :: MaxLine(m) in r ==> m == f.value.max && r[|r| - 1] == MaxLine(m)
  {
    match f
    case None => []
    case Some(fr) =>
      if fr.max > 0.0 then [CurrentLine(fr.current), MaxLine(fr.max)] else [CurrentLine(fr.current)]
  }

  /** `get_cpu_details` on given readings: every core appears once, numbered
      by its position in the provider's list. */
  function CpuDetails(c: CpuInputs): (r: CpuReport)
    ensures r.physicalCores == c.physicalCores && r.logicalCores == c.logicalCores
    ensures r.frequencyLines == FrequencyLines(c.frequency)
    ensures |r.cores| == |c.perCore|
    ensures forall i :: 0 <= i < |r.cores| ==> r.cores[i] == CoreLine(i, c.perCore[i])
    ensures (r.load1, r.load5, r.load15) == (c.load1, c.load5, c.load15)
  {
    CpuReport(
      c.physicalCores, c.logicalCores,
      FrequencyLines(c.frequency),
      seq(|c.perCore|, i requires 0 <= i < |c.perCore| => CoreLine(i, c.perCore[i])),
      c.load1, c.load5, c.load15)
  }
}

=== FILE: decimal.dfy ===
/** Decimal rendering of whole numbers (Python's `str` of a non-negative
    `int`) and the digit reader that undoes it. */
module Decimal {

  predicate IsDigit(c: char) {
    '0' <= c <= '9'
  }

  predicate AllDigits(s: string) {
    forall i :: 0 <= i < |s| ==> IsDigit(s[i])
  }

  function DigitChar(d: nat): (c: char)
    requires d < 10
    ensures IsDigit(c)
    ensures c == '0' <==> d == 0
  {
    ['0', '1', '2', '3', '4', '5', '6', '7', '8', '9'][d]
  }

  function DigitValue(c: char): (d: nat)
    requires IsDigit(c)
    ensures d < 10
  {
    (c as int - '0' as int) as nat
  }

  /** The decimal text of `n`, most significant digit first, without leading
      zeros. */
  function Show(n: nat): (s: string)
    ensures |s| > 0 && AllDigits(s)
    ensures n < 10 <==> |s| == 1
    ensures s[0] == '0' <==> n == 0
  {
    if n < 10 then [DigitChar(n)] else Show(n / 10) + [DigitChar(n % 10)]
  }

  /** The number a string of digits denotes. */
  function ValueOf(s: string): nat
    requires AllDigits(s)
  {
    if |s| == 0 then 0 else ValueOf(s[..|s| - 1]) * 10 + DigitValue(s[|s| - 1])
  }

  /** Splits `s` into its longest all-digit prefix and the rest. */
  function Span(s: string): (r: (string, string))
    ensures AllDigits(r.0) && r.0 + r.1 == s
    ensures |r.1| > 0 ==> !IsDigit(r.1[0])
  {
    if |s| == 0 || !IsDigit(s[0]) then ("", s)
    else
      var rest := Span(s[1..]);
      ([s[0]] + rest.0, rest.1)
  }

  /** Reading back a rendered number gives the number. */
  lemma {:induction false} ValueOfShow(n: nat)
    ensures ValueOf(Show(n)) == n
  {
    if n >= 10 {
      var s := Show(n);
      assert s[..|s| - 1] == Show(n / 10);
      ValueDigitChar(n % 10);
      ValueOfShow(n / 10);
    } else {
      ValueDigitChar(n);
    }
  }

  lemma ValueDigitChar(d: nat)
    requires d < 10
    ensures DigitValue(DigitChar(d)) == d
  {
  }

  /** A digit string followed by text that does not start with a digit splits
      exactly at the boundary. */
  lemma {:induction false} SpanAt(digits: string, rest: string)
    requires AllDigits(digits)
    requires |rest| > 0 ==> !IsDigit(rest[0])
    ensures Span(digits + rest) == (digits, rest)
  {
    if |digits| > 0 {
      var s := digits + rest;
      assert s[0] == digits[0] && IsDigit(s[0]);
      assert s[1..] == digits[1..] + rest;
      SpanAt(digits[1..], rest);
      assert [digits[0]] + digits[1..] == digits;
    } else {
      assert digits + rest == rest;
    }
  }
}

=== FILE: dispatch.dfy ===
/** The tool handler (`handle_call_tool`): the five tool names, their
    arguments with defaults, and the unknown-name error. Every reading the
    handlers would take from the operating system is part of the input. */
module Dispatch {
  import opened Wrappers
  import Alerts
  import Processes
  import Network
  import CpuDetails
  import Status

  /** The five tools. */
  datatype Tool = GetSystemStatus | GetTopProcesses | GetNetworkStats | GetCpuDetails | CheckAlerts {

    /** The name a caller requests the tool by. */
    function Name(): string {
      match this
      case GetSystemStatus => "get_system_status"
      case GetTopProcesses => "get_top_processes"
      case GetNetworkStats => "get_network_stats"
      case GetCpuDetails => "get_cpu_details"
      case CheckAlerts => "check_alerts"
    }
  }

  /** The names of the five tools. */
  const KnownNames: set<string> :=
    {"get_system_status", "get_top_processes", "get_network_stats", "get_cpu_details", "check_alerts"}

  /** The error raised for a name that is not a tool. */
  datatype ToolError = UnknownTool(name: string)

  /** The tool a name selects, tried in the handler's order. */
  function Lookup(name: string): (r: Result<Tool, ToolError>)
    ensures r.Success? <==> name in KnownNames
    ensures r.Success? ==> r.value.Name() == name
    ensures r.Failure? ==> r.error == UnknownTool(name)
  {
    if name == "get_system_status" then Success(GetSystemStatus)
    else if name == "get_top_processes" then Success(GetTopProcesses)
    else if name == "get_network_stats" then Success(GetNetworkStats)
    else if name == "get_cpu_details" then Success(GetCpuDetails)
    else if name == "check_alerts" then Success(CheckAlerts)
    else Failure(UnknownTool(name))
  }

  /** Every tool is found again by its name, so the names are distinct. */
  lemma LookupByName(t: Tool)
    ensures Lookup(t.Name()) == Success(t)
  {
  }

  /** The arguments of a request; an absent key (or absent arguments) takes
      the default. */
  datatype Arguments = Arguments(limit: Option<int>, sortBy: Option<string>)

  const DefaultLimit: int := 10
  const DefaultSortBy: string := "cpu"

  /** Everything the five handlers read from the operating system. */
  datatype Readings = Readings(
    status: Status.StatusInputs,
    processes: seq<Processes.ProcRead>,
    counters: Network.IoCounters,
    interfaces: seq<Network.Interface>,
    cpu: CpuDetails.CpuInputs,
    sample: Alerts.Sample)

  /** The text content a tool answers with. */
  datatype Response =
    | StatusText(status: Status.StatusReport)
    | ProcessText(processes: Processes.ProcessReport)
    | NetworkText(network: Network.NetworkReport)
    | CpuText(cpu: CpuDetails.CpuReport)
    | AlertText(summary: Alerts.Summary)

  /** Runs the handler of the tool a name selects, or fails for an unknown
      name. */
  function Handle(name: string, args: Option<Arguments>, env: Readings): (r: Result<Response, ToolError>)
    ensures r.Failure? <==> name !in KnownNames
    ensures r.Failure? ==> r.error == UnknownTool(name)
    ensures name == "get_system_status" ==> r == Success(StatusText(Status.SystemStatus(env.status)))
    ensures name == "get_top_processes" ==>
      var a := args.GetOr(Arguments(None, None));
      r == Success(ProcessText(Processes.TopProcesses(env.processes, a.limit.GetOr(DefaultLimit), a.sortBy.GetOr(DefaultSortBy))))
    ensures name == "get_network_stats" ==> r == Success(NetworkText(Network.NetworkStats(env.counters, env.interfaces)))
    ensures name == "get_cpu_details" ==> r == Success(CpuText(CpuDetails.CpuDetails(env.cpu)))
    ensures name == "check_alerts" ==> r == Success(AlertText(Alerts.Summarize(Alerts.CheckAlerts(env.sample))))
  {
    match Lookup(name)
    case Failure(e) => Failure(e)
    case Success(t) => Success(Run(t, args, env))
  }

  /** The handler of one tool: each tool answers with its own kind of
      report, built from its own readings, with absent arguments replaced
      by the defaults. */
  function Run(t: Tool, args: Option<Arguments>, env: Readings): (r: Response)
    ensures r.StatusText? <==> t == GetSystemStatus
    ensures r.ProcessText? <==> t == GetTopProcesses
    ensures r.NetworkText? <==> t == GetNetworkStats
    ensures r.CpuText? <==> t == GetCpuDetails
    ensures r.AlertText? <==> t == CheckAlerts
    ensures r.StatusText? ==> r.status == Status.SystemStatus(env.status)
    ensures r.ProcessText? ==> var a := args.GetOr(Arguments(None, None));
      && r.processes.limit == a.limit.GetOr(DefaultLimit)
      && r.processes.sortBy == a.sortBy.GetOr(DefaultSortBy)
      && r.processes == Processes.TopProcesses(env.processes, r.processes.limit, r.processes.sortBy)
    ensures r.NetworkText? ==> r.network == Network.NetworkStats(env.counters, env.interfaces)
    ensures r.CpuText? ==> r.cpu == CpuDetails.CpuDetails(env.cpu)
    ensures r.AlertText? ==> r.summary == Alerts.Summarize(Alerts.CheckAlerts(env.sample))
  {
    match t
    case GetSystemStatus => StatusText(Status.SystemStatus(env.status))
    case GetTopProcesses =>
      var a := args.GetOr(Arguments(None, None));
      ProcessText(Processes.TopProcesses(env.processes, a.limit.GetOr(DefaultLimit), a.sortBy.GetOr(DefaultSortBy)))
    case GetNetworkStats => NetworkText(Network.NetworkStats(env.counters, env.interfaces))
    case GetCpuDetails => CpuText(CpuDetails.CpuDetails(env.cpu))
    case CheckAlerts => AlertText(Alerts.Summarize(Alerts.CheckAlerts(env.sample)))
  }

  /** Without arguments the process tool shows the top ten by CPU. */
  lemma DefaultProcessRequest(env: Readings)
    ensures Handle("get_top_processes", None, env) ==
      Success(ProcessText(Processes.TopProcesses(env.processes, 10, "cpu")))
  {
  }

  /** The alert tool answers with the fixed all-normal text exactly when no
      domain is above its medium threshold. */
  lemma AlertToolAllNormal(env: Readings)
    ensures Handle("check_alerts", None, env) == Success(AlertText(Alerts.AllNormal)) <==>
      (env.sample.cpu <= 80.0 && env.sample.memory <= 85.0 && env.sample.disk <= 90.0 && env.sample.swap <= 75.0)
  {
    var s := env.sample;
    var alerts := Alerts.CheckAlerts(s);
    if |alerts| > 0 {
      var a := alerts[0];
      assert Alerts.Raises(a.domain, s.Reading(a.domain), a);
    } else {
      assert s.Reading(Alerts.Cpu) == s.cpu;
      assert Alerts.Cpu !in Alerts.DomainsOf(alerts);
      assert Alerts.Memory !in Alerts.DomainsOf(alerts);
      assert Alerts.Disk !in Alerts.DomainsOf(alerts);
      assert Alerts.Swap !in Alerts.DomainsOf(alerts);
    }
  }
}

=== FILE: network.dfy ===
/** The network report (`get_network_stats`): byte totals in scaled units,
    packet totals, error and drop sums, and the IPv4 addresses of the
    interfaces. The counters and the interface table are inputs. */
module Network {
  import opened Wrappers
  import Bytes

  /** The system-wide I/O counters. */
  datatype IoCounters = IoCounters(
    bytesSent: nat, bytesRecv: nat,
    packetsSent: nat, packetsRecv: nat,
    errin: nat, errout: nat,
    dropin: nat, dropout: nat)

  /** One address of an interface with its address family number. */
  datatype Address = Address(family: int, address: string)

  /** One entry of the interface table, in the table's iteration order. */
  datatype Interface = Interface(name: string, addresses: seq<Address>)

  /** The address-family number of IPv4 (`AF_INET`). */
  const Ipv4Family: int := 2

  /** One "interface: address" line of the active-interfaces section. */
  datatype ActiveLine = ActiveLine(interface: string, address: string)

  /** The IPv4 lines of one interface, in address order. */
  function AddressLines(name: string, addrs: seq<Address>): (r: seq<ActiveLine>)
    ensures |r| <= |addrs|
    ensures forall a :: ActiveLine(name, a) in r <==> Address(Ipv4Family, a) in addrs
    ensures forall l :: l in r ==> l.interface == name
  {
    if |addrs| == 0 then []
    else
      var rest := AddressLines(name, addrs[1..]);
      assert addrs == [addrs[0]] + addrs[1..];
      if addrs[0].family == Ipv4Family then [ActiveLine(name, addrs[0].address)] + rest else rest
  }

  /** The lines of an address list are those of its parts, in address
      order: one line per IPv4 address, a repeated address included, and
      none for any other family. */
  lemma {:induction false} AddressLinesAppend(name: string, a: seq<Address>, b: seq<Address>)
    ensures forall x :: AddressLines(name, [Address(Ipv4Family, x)]) == [ActiveLine(name, x)]
    ensures forall f, x :: f != Ipv4Family ==> AddressLines(name, [Address(f, x)]) == []
    ensures AddressLines(name, a + b) == AddressLines(name, a) + AddressLines(name, b)
  {
    if |a| > 0 {
      assert (a + b)[0] == a[0];
      assert (a + b)[1..] == a[1..] + b;
      AddressLinesAppend(name, a[1..], b);
    } else {
      assert a + b == b;
    }
  }

  /** The IPv4 lines of all interfaces, interface by interface. A line is
      listed exactly when its interface has that address with the IPv4
      family. */
  function Ipv4Lines(ifaces: seq<Interface>): (r: seq<ActiveLine>)
    ensures forall n, a :: ActiveLine(n, a) in r <==>
      exists i :: 0 <= i < |ifaces| && ifaces[i].name == n && Address(Ipv4Family, a) in ifaces[i].addresses
  {
    if |ifaces| == 0 then []
    else
      var rest := Ipv4Lines(ifaces[1..]);
      var here := AddressLines(ifaces[0].name, ifaces[0].addresses);
      here + rest
  }

  /** The lines of a one-interface table are that interface's address
      lines, and the lines of a table are those of its parts, in table
      order; with `AddressLinesAppend` this fixes every line, its position
      and its repeats. */
  lemma {:induction false} Ipv4LinesAppend(a: seq<Interface>, b: seq<Interface>)
    ensures forall i: Interface :: Ipv4Lines([i]) == AddressLines(i.name, i.addresses)
    ensures Ipv4Lines(a + b) == Ipv4Lines(a) + Ipv4Lines(b)
  {
    forall i: Interface ensures Ipv4Lines([i]) == AddressLines(i.name, i.addresses) {
      assert [i][1..] == [];
    }
    if |a| > 0 {
      assert (a + b)[1..] == a[1..] + b;
      Ipv4LinesAppend(a[1..], b);
    } else {
      assert a + b == b;
    }
  }

  /** There is an IPv4 line exactly when some interface has an IPv4
      address. */
  lemma SomeLineIffIpv4(ifaces: seq<Interface>)
    ensures |Ipv4Lines(ifaces)| > 0 <==>
      exists i :: 0 <= i < |ifaces| && exists a :: Address(Ipv4Family, a) in ifaces[i].addresses
  {
    var lines := Ipv4Lines(ifaces);
    if exists i :: 0 <= i < |ifaces| && exists a :: Address(Ipv4Family, a) in ifaces[i].addresses {
      var i, a :| 0 <= i < |ifaces| && Address(Ipv4Family, a) in ifaces[i].addresses;
      assert ActiveLine(ifaces[i].name, a) in lines;
    }
    if |lines| > 0 {
      var l := lines[0];
      assert ActiveLine(l.interface, l.address) in lines;
    }
  }

  /** The report: the section of active interfaces is present only when
      there is at least one IPv4 line. */
  datatype NetworkReport = NetworkReport(
    sent: Bytes.Scaled, received: Bytes.Scaled,
    packetsSent: nat, packetsReceived: nat,
    errors: nat, dropped: nat,
    active: Option<seq<ActiveLine>>)

  /** `get_network_stats` on given counters and interface table. */
  function NetworkStats(c: IoCounters, ifaces: seq<Interface>): (r: NetworkReport)
    ensures Bytes.IsScalingOf(c.bytesSent as real, r.sent)
    ensures Bytes.IsScalingOf(c.bytesRecv as real, r.received)
    ensures r.packetsSent == c.packetsSent && r.packetsReceived == c.packetsRecv
    ensures r.errors == c.errin + c.errout && r.dropped == c.dropin + c.dropout
    ensures r.active.Some? <==> exists i :: 0 <= i < |ifaces| && exists a :: Address(Ipv4Family, a) in ifaces[i].addresses
    ensures r.active.Some? ==> r.active.value == Ipv4Lines(ifaces)
  {
    var lines := Ipv4Lines(ifaces);
    SomeLineIffIpv4(ifaces);
    NetworkReport(
      Bytes.Scale(c.bytesSent as real), Bytes.Scale(c.bytesRecv as real),
      c.packetsSent, c.packetsRecv,
      c.errin + c.errout, c.dropin + c.dropout,
      if |lines| > 0 then Some(lines) else None)
  }
}

=== FILE: processes.dfy ===
/** The process ranking behind `get_top_processes`: per-process fields with
    defaults, a stable sort descending by the chosen percentage, and the
    numbered first `limit` entries. The enumeration of processes is an
    input; reading it from the operating system is not modelled. */
module Processes {
  import opened Wrappers

  /** What the enumeration reports for one process; a field the provider
      could not supply is absent. */
  datatype RawInfo = RawInfo(
    pid: Option<int>,
    name: Option<string>,
    cpuPercent: Option<real>,
    memoryPercent: Option<real>,
    rss: Option<nat>)

  /** One step of the enumeration: the process vanished or could not be
      read (the source skips it), or its fields were read. */
  datatype ProcRead = Vanished | Read(info: RawInfo)

  /** A process as the report shows it. */
  datatype ProcessEntry = ProcessEntry(pid: int, name: string, cpuPercent: real, memoryPercent: real, memoryMb: real)

  const BytesPerMb: real := 1048576.0

  /** The defaults of the source: pid 0, name "Unknown", a missing
      percentage 0.0, and a missing resident size 0 MB; a present resident
      size is shown in MB (divided by 1024 twice). */
  function Normalise(info: RawInfo): (e: ProcessEntry)
    ensures info.pid.None? ==> e.pid == 0
    ensures info.name.None? ==> e.name == "Unknown"
    ensures info.cpuPercent.None? ==> e.cpuPercent == 0.0
    ensures info.memoryPercent.None? ==> e.memoryPercent == 0.0
    ensures info.rss.None? ==> e.memoryMb == 0.0
    ensures info.pid.Some? ==> e.pid == info.pid.value
    ensures info.name.Some? ==> e.name == info.name.value
    ensures info.cpuPercent.Some? ==> e.cpuPercent == info.cpuPercent.value
    ensures info.memoryPercent.Some? ==> e.memoryPercent == info.memoryPercent.value
    ensures info.rss.Some? ==> e.memoryMb * BytesPerMb == info.rss.value as real
  {
    ProcessEntry(
      info.pid.GetOr(0),
      info.name.GetOr("Unknown"),
      info.cpuPercent.GetOr(0.0),
      info.memoryPercent.GetOr(0.0),
      match info.rss
      case Some(rss) => rss as real / 1024.0 / 1024.0
      case None => 0.0)
  }

  /** The readable processes of an enumeration, in enumeration order. */
  function Collect(procs: seq<ProcRead>): (entries: seq<ProcessEntry>)
    ensures |entries| <= |procs|
    ensures forall info :: Read(info) in procs ==> Normalise(info) in entries
    ensures forall e :: e in entries ==> exists info :: Read(info) in procs && e == Normalise(info)
  {
    if |procs| == 0 then []
    else
      var rest := Collect(procs[1..]);
      match procs[0]
      case Vanished => rest
      case Read(info) => [Normalise(info)] + rest
  }

  /** A vanished process contributes nothing and a read one contributes
      exactly its normalised entry. */
  lemma CollectOne(info: RawInfo)
    ensures Collect([Vanished]) == []
    ensures Collect([Read(info)]) == [Normalise(info)]
  {
  }

  /** The entries of an enumeration are those of its parts, in enumeration
      order and with duplicates kept; with `CollectOne` this fixes the
      entries of any enumeration. */
  lemma {:induction false} CollectAppend(a: seq<ProcRead>, b: seq<ProcRead>)
    ensures Collect(a + b) == Collect(a) + Collect(b)
  {
    if |a| > 0 {
      assert (a + b)[0] == a[0];
      assert (a + b)[1..] == a[1..] + b;
      CollectAppend(a[1..], b);
    } else {
      assert a + b == b;
    }
  }

  /** The percentage a ranking orders by. */
  datatype SortKey = ByCpu | ByMemory

  /** "memory" orders by memory; every other value orders by CPU. */
  function KeyOf(sortBy: string): (k: SortKey)
    ensures k == ByMemory <==> sortBy == "memory"
  {
    if sortBy == "memory" then ByMemory else ByCpu
  }

  function Key(k: SortKey, e: ProcessEntry): real {
    match k
    case ByCpu => e.cpuPercent
    case ByMemory => e.memoryPercent
  }

  /** Non-increasing by the key. */
  ghost predicate SortedDesc(k: SortKey, s: seq<ProcessEntry>) {
    forall i, j :: 0 <= i < j < |s| ==> Key(k, s[i]) >= Key(k, s[j])
  }

  /** The entries whose key equals `v`, in their order in `s`. */
  function WithKey(k: SortKey, s: seq<ProcessEntry>, v: real): seq<ProcessEntry> {
    if |s| == 0 then []
    else if Key(k, s[0]) == v then [s[0]] + WithKey(k, s[1..], v)
    else WithKey(k, s[1..], v)
  }

  /** `t` is `s` sorted stably in descending key order: non-increasing, and
      the entries of each key value appear in the same order as in `s`. */
  ghost predicate StableSortOf(k: SortKey, s: seq<ProcessEntry>, t: seq<ProcessEntry>) {
    SortedDesc(k, t) && forall v :: WithKey(k, t, v) == WithKey(k, s, v)
  }

  /** Places `x` before the first entry whose key is not larger, so it
      precedes the entries of equal key. */
  function Insert(k: SortKey, x: ProcessEntry, s: seq<ProcessEntry>): (r: seq<ProcessEntry>)
    requires SortedDesc(k, s)
    ensures SortedDesc(k, r)
    ensures multiset(r) == multiset(s) + multiset{x}
    ensures |r| == |s| + 1
    ensures r[0] == x || (|s| > 0 && r[0] == s[0])
  {
    if |s| == 0 || Key(k, x) >= Key(k, s[0]) then [x] + s
    else
      var rest := Insert(k, x, s[1..]);
      assert Key(k, rest[0]) <= Key(k, s[0]);
      assert s == [s[0]] + s[1..];
      [s[0]] + rest
  }

  /** The list sorted descending by the key, ties kept in their original
      order (Python's `sort(key=..., reverse=True)` is stable). */
  function SortDesc(k: SortKey, s: seq<ProcessEntry>): (r: seq<ProcessEntry>)
    ensures SortedDesc(k, r)
    ensures multiset(r) == multiset(s)
    ensures |r| == |s|
  {
    if |s| == 0 then []
    else
      assert s == [s[0]] + s[1..];
      Insert(k, s[0], SortDesc(k, s[1..]))
  }

  /** Inserting `x` puts it in front of the entries of its own key and
      leaves the order of every key value otherwise unchanged. */
  lemma {:induction false} InsertKeepsKeyOrder(k: SortKey, x: ProcessEntry, s: seq<ProcessEntry>, v: real)
    requires SortedDesc(k, s)
    ensures WithKey(k, Insert(k, x, s), v) == WithKey(k, [x] + s, v)
  {
    if |s| == 0 || Key(k, x) >= Key(k, s[0]) {
    } else {
      InsertKeepsKeyOrder(k, x, s[1..], v);
      var xs := [x] + s;
      assert xs[1..] == s;
      assert ([x] + s[1..])[1..] == s[1..];
    }
  }

  /** The sort is stable: for every key value, the entries with that key
      keep their enumeration order. */
  lemma {:induction false} SortDescIsStable(k: SortKey, s: seq<ProcessEntry>)
    ensures StableSortOf(k, s, SortDesc(k, s))
  {
    if |s| > 0 {
      SortDescIsStable(k, s[1..]);
      forall v ensures WithKey(k, SortDesc(k, s), v) == WithKey(k, s, v) {
        InsertKeepsKeyOrder(k, s[0], SortDesc(k, s[1..]), v);
        var ys := [s[0]] + SortDesc(k, s[1..]);
        assert ys[1..] == SortDesc(k, s[1..]);
      }
    }
  }

  lemma {:induction false} WithKeyMembers(k: SortKey, s: seq<ProcessEntry>, v: real, x: ProcessEntry)
    ensures x in WithKey(k, s, v) <==> x in s && Key(k, x) == v
  {
    if |s| > 0 {
      WithKeyMembers(k, s[1..], v, x);
      assert s == [s[0]] + s[1..];
    }
  }

  /** A key value present in a descending list is at most its first key. */
  lemma HeadKeyIsLargest(k: SortKey, s: seq<ProcessEntry>, v: real)
    requires SortedDesc(k, s)
    requires WithKey(k, s, v) != []
    ensures |s| > 0 && v <= Key(k, s[0])
  {
    var x := WithKey(k, s, v)[0];
    WithKeyMembers(k, s, v, x);
    var j :| 0 <= j < |s| && s[j] == x;
  }

  /** A list with no entries under any key value is empty. */
  lemma NoKeysMeansEmpty(k: SortKey, s: seq<ProcessEntry>)
    ensures (forall v :: WithKey(k, s, v) == []) ==> s == []
  {
    if |s| > 0 {
      assert WithKey(k, s, Key(k, s[0])) != [];
    }
  }

  /** Stable descending order is unique: any list that is non-increasing and
      keeps every key value's entries in enumeration order is the one the
      sort returns. */
  lemma {:induction false} StableSortIsUnique(k: SortKey, a: seq<ProcessEntry>, b: seq<ProcessEntry>)
    requires SortedDesc(k, a) && SortedDesc(k, b)
    requires forall v :: WithKey(k, a, v) == WithKey(k, b, v)
    ensures a == b
  {
    if |a| == 0 {
      NoKeysMeansEmpty(k, b);
    } else if |b| == 0 {
      NoKeysMeansEmpty(k, a);
    } else {
      var ka, kb := Key(k, a[0]), Key(k, b[0]);
      assert WithKey(k, a, ka) != [];
      HeadKeyIsLargest(k, b, ka);
      assert WithKey(k, b, kb) != [];
      HeadKeyIsLargest(k, a, kb);
      assert ka == kb;
      assert a[0] == WithKey(k, a, ka)[0] == WithKey(k, b, ka)[0] == b[0];
      forall v ensures WithKey(k, a[1..], v) == WithKey(k, b[1..], v) {
        if v == ka {
          assert WithKey(k, a, v) == [a[0]] + WithKey(k, a[1..], v);
          assert WithKey(k, b, v) == [b[0]] + WithKey(k, b[1..], v);
          assert WithKey(k, a, v)[1..] == WithKey(k, a[1..], v);
          assert WithKey(k, b, v)[1..] == WithKey(k, b[1..], v);
        } else {
          assert WithKey(k, a, v) == WithKey(k, a[1..], v);
          assert WithKey(k, b, v) == WithKey(k, b[1..], v);
        }
      }
      StableSortIsUnique(k, a[1..], b[1..]);
      assert a == [a[0]] + a[1..] && b == [b[0]] + b[1..];
    }
  }

  /** The sort's result is characterised by the stable-sort description
      alone. */
  lemma StableSortCharacterised(k: SortKey, s: seq<ProcessEntry>, t: seq<ProcessEntry>)
    ensures StableSortOf(k, s, t) <==> t == SortDesc(k, s)
  {
    SortDescIsStable(k, s);
    if StableSortOf(k, s, t) {
      StableSortIsUnique(k, t, SortDesc(k, s));
    }
  }

  /** Python's `xs[:limit]` length: a non-negative limit keeps at most
      `limit` entries, a negative one drops `-limit` entries from the end. */
  function SliceEnd(limit: int, n: nat): (m: nat)
    ensures m <= n
    ensures limit >= 0 ==> m <= limit && (m < limit ==> m == n)
    ensures limit < 0 ==> m - limit >= n && (m > 0 ==> m - limit == n)
  {
    if limit >= 0 then (if limit < n then limit else n)
    else if n + limit > 0 then n + limit else 0
  }

  /** One numbered line of the report. */
  datatype Row = Row(rank: nat, entry: ProcessEntry)

  /** The report: the header names the requested limit and ordering, then
      the numbered rows. */
  datatype ProcessReport = ProcessReport(limit: int, sortBy: string, rows: seq<Row>)

  /** `get_top_processes(limit, sort_by)` on a given enumeration. */
  function TopProcesses(procs: seq<ProcRead>, limit: int, sortBy: string): (r: ProcessReport)
    ensures r.limit == limit && r.sortBy == sortBy
    ensures |r.rows| == SliceEnd(limit, |Collect(procs)|)
    ensures forall i :: 0 <= i < |r.rows| ==> r.rows[i].rank == i + 1
    ensures forall i, j :: 0 <= i < j < |r.rows| ==>
      Key(KeyOf(sortBy), r.rows[i].entry) >= Key(KeyOf(sortBy), r.rows[j].entry)
  {
    var sorted := SortDesc(KeyOf(sortBy), Collect(procs));
    var shown := sorted[..SliceEnd(limit, |sorted|)];
    ProcessReport(limit, sortBy, seq(|shown|, i requires 0 <= i < |shown| => Row(i + 1, shown[i])))
  }

  /** The entries of the rows, in row order. */
  function Entries(rows: seq<Row>): seq<ProcessEntry> {
    seq(|rows|, i requires 0 <= i < |rows| => rows[i].entry)
  }

  /** The rows show a prefix of the stable descending order of all
      readable processes. */
  lemma TopIsPrefix(procs: seq<ProcRead>, limit: int, sortBy: string)
    ensures var sorted := SortDesc(KeyOf(sortBy), Collect(procs));
      var shown := Entries(TopProcesses(procs, limit, sortBy).rows);
      |shown| <= |sorted| && shown == sorted[..|shown|]
  {
  }

  /** The rows are the top of the ranking: every process left out ranks no
      higher than any process shown, the shown processes are among the
      readable ones, and a limit of at least the process count shows every
      process exactly once. */
  lemma TopAreLargest(procs: seq<ProcRead>, limit: int, sortBy: string)
    ensures var k := KeyOf(sortBy);
      var all := Collect(procs);
      var shown := Entries(TopProcesses(procs, limit, sortBy).rows);
      var sorted := SortDesc(k, all);
      && (forall x, y :: x in shown && y in sorted[|shown|..] ==> Key(k, y) <= Key(k, x))
      && multiset(shown) <= multiset(all)
    ensures limit >= |Collect(procs)| ==>
      multiset(Entries(TopProcesses(procs, limit, sortBy).rows)) == multiset(Collect(procs))
  {
    var k := KeyOf(sortBy);
    var sorted := SortDesc(k, Collect(procs));
    var shown := Entries(TopProcesses(procs, limit, sortBy).rows);
    TopIsPrefix(procs, limit, sortBy);
    PrefixOutranksRest(k, sorted, |shown|);
    if limit >= |Collect(procs)| {
      assert |shown| == |sorted|;
      assert shown == sorted;
    }
  }

  /** In a descending list, a prefix outranks the rest and is part of the
      list; the whole list as prefix is the list itself. */
  lemma PrefixOutranksRest(k: SortKey, sorted: seq<ProcessEntry>, m: nat)
    requires SortedDesc(k, sorted) && m <= |sorted|
    ensures forall x, y :: x in sorted[..m] && y in sorted[m..] ==> Key(k, y) <= Key(k, x)
    ensures multiset(sorted[..m]) <= multiset(sorted)
  {
    var shown, rest := sorted[..m], sorted[m..];
    assert sorted == shown + rest;
    forall x, y | x in shown && y in rest ensures Key(k, y) <= Key(k, x) {
      var i :| 0 <= i < m && shown[i] == x;
      var j :| 0 <= j < |rest| && rest[j] == y;
      assert sorted[i] == x && sorted[m + j] == y;
    }
    assert multiset(sorted) == multiset(shown) + multiset(rest);
  }

  /** A limit of zero shows the header and no process. */
  lemma ZeroLimitShowsNone(procs: seq<ProcRead>, sortBy: string)
    ensures TopProcesses(procs, 0, sortBy).rows == []
  {
  }
}

=== FILE: status.dfy ===
/** The status report (`get_system_status`): usage percentages, byte
    amounts in scaled units and the uptime text. The readings and the
    elapsed time since boot are inputs. */
module Status {
  import opened Wrappers
  import Bytes
  import Uptime

  /** The readings the report is built from; byte amounts as the provider
      reports them. */
  datatype StatusInputs = StatusInputs(
    cpuPercent: real, cpuCount: Option<nat>,
    load1: real, load5: real, load15: real,
    memoryPercent: real, memoryUsed: nat, memoryTotal: nat, memoryAvailable: nat,
    swapPercent: real, swapUsed: nat, swapTotal: nat,
    diskPercent: real, diskUsed: nat, diskTotal: nat, diskFree: nat,
    secondsSinceBoot: real)

  datatype StatusReport = StatusReport(
    cpuPercent: real, cpuCount: Option<nat>,
    load1: real, load5: real, load15: real,
    memoryPercent: real, memoryUsed: Bytes.Scaled, memoryTotal: Bytes.Scaled,
    swapPercent: real, swapUsed: Bytes.Scaled, swapTotal: Bytes.Scaled,
    memoryAvailable: Bytes.Scaled,
    diskPercent: real, diskUsed: Bytes.Scaled, diskTotal: Bytes.Scaled, diskFree: Bytes.Scaled,
    uptime: string)

  /** `get_system_status` on given readings: every byte amount is scaled by
      the byte-unit walk, and the uptime is `format_uptime`'s text, which
      reads back as the whole days, hours and minutes since boot. */
  function SystemStatus(s: StatusInputs): (r: StatusReport)
    ensures Bytes.IsScalingOf(s.memoryUsed as real, r.memoryUsed)
    ensures Bytes.IsScalingOf(s.memoryTotal as real, r.memoryTotal)
    ensures Bytes.IsScalingOf(s.memoryAvailable as real, r.memoryAvailable)
    ensures Bytes.IsScalingOf(s.swapUsed as real, r.swapUsed)
    ensures Bytes.IsScalingOf(s.swapTotal as real, r.swapTotal)
    ensures Bytes.IsScalingOf(s.diskUsed as real, r.diskUsed)
    ensures Bytes.IsScalingOf(s.diskTotal as real, r.diskTotal)
    ensures Bytes.IsScalingOf(s.diskFree as real, r.diskFree)
    ensures r.uptime == Uptime.Text(s.secondsSinceBoot)
    ensures s.secondsSinceBoot >= 0.0 ==>
      Uptime.Parse(r.uptime) == Some(Uptime.Decompose(s.secondsSinceBoot))
    ensures r.cpuCount == s.cpuCount && (r.load1, r.load5, r.load15) == (s.load1, s.load5, s.load15)
    ensures r.cpuPercent == s.cpuPercent && r.memoryPercent == s.memoryPercent
    ensures r.swapPercent == s.swapPercent && r.diskPercent == s.diskPercent
  {
    StatusReport(
      s.cpuPercent, s.cpuCount,
      s.load1, s.load5, s.load15,
      s.memoryPercent, Bytes.Scale(s.memoryUsed as real), Bytes.Scale(s.memoryTotal as real),
      s.swapPercent, Bytes.Scale(s.swapUsed as real), Bytes.Scale(s.swapTotal as real),
      Bytes.Scale(s.memoryAvailable as real),
      s.diskPercent, Bytes.Scale(s.diskUsed as real), Bytes.Scale(s.diskTotal as real), Bytes.Scale(s.diskFree as real),
      Uptime.Text(s.secondsSinceBoot))
  }
}

=== FILE: uptime.dfy ===
/** Uptime text (`format_uptime`): elapsed seconds split into whole days,
    hours and minutes, shown in one of three shapes. The elapsed time is an
    input; reading the clock and the boot time is not modelled. */
module Uptime {
  import opened Wrappers
  import opened Decimal

  /** Python's `x // d` on floats for a positive divisor: the floor of the
      quotient. */
  function FloorDiv(x: real, d: real): (q: int)
    requires d > 0.0
    ensures q as real <= x / d < q as real + 1.0
  {
    (x / d).Floor
  }

  /** Python's `x % d` on floats for a positive divisor: never negative. */
  function Mod(x: real, d: real): (r: real)
    requires d > 0.0
    ensures 0.0 <= r < d
    ensures x == d * FloorDiv(x, d) as real + r
  {
    var q := FloorDiv(x, d) as real;
    ScaledBracket(d, x, q);
    x - d * q
  }

  /** When `x / d` lies in `[q, q + 1)`, `x` exceeds `d * q` by less than
      `d`. */
  lemma ScaledBracket(d: real, x: real, q: real)
    requires d > 0.0 && q <= x / d < q + 1.0
    ensures 0.0 <= x - d * q < d
  {
    var y := x / d;
    var f := y - q;
    FractionScaled(d, f);
    assert d * f == d * y - d * q;
    assert x == d * y;
    assert x - d * q == d * f;
    assert d * f < d;
    assert x - d * q < d;
  }

  /** A fraction in `[0, 1)` scaled by a positive factor stays in `[0, d)`. */
  lemma FractionScaled(d: real, f: real)
    requires d > 0.0 && 0.0 <= f < 1.0
    ensures 0.0 <= d * f < d
  {
  }

  /** Whole days, hours and minutes of an elapsed time. */
  datatype Parts = Parts(days: int, hours: int, minutes: int)

  /** The three `int(...)` computations of `format_uptime`. Fractions of a
      second never matter, hours stay below 24 and minutes below 60, and the
      parts account for the elapsed time to within one minute. */
  function Decompose(s: real): (p: Parts)
    ensures p.days == s.Floor / 86400
    ensures 0 <= p.hours < 24 && 0 <= p.minutes < 60
    ensures p.hours == (s.Floor % 86400) / 3600
    ensures p.minutes == (s.Floor % 3600) / 60
    ensures var t := (86400 * p.days + 3600 * p.hours + 60 * p.minutes) as real;
      t <= s < t + 60.0
    ensures s >= 0.0 ==> p.days >= 0
  {
    var p := Parts(FloorDiv(s, 86400.0), FloorDiv(Mod(s, 86400.0), 3600.0), FloorDiv(Mod(s, 3600.0), 60.0));
    var w := s.Floor;
    FloorDivOfFloor(s, 86400);
    ModOfFloor(s, 86400);
    FloorDivOfFloor(Mod(s, 86400.0), 3600);
    ModOfFloor(s, 3600);
    FloorDivOfFloor(Mod(s, 3600.0), 60);
    IntegerParts(w);
    p
  }

  /** Dividing and flooring a real by one of the three divisors gives the
      same result as first dropping its fraction. */
  lemma FloorDivOfFloor(x: real, d: nat)
    requires d == 60 || d == 3600 || d == 86400
    ensures FloorDiv(x, d as real) == x.Floor / d
  {
    var w := x.Floor;
    var q := w / d;
    assert q * d <= w < q * d + d;
    if d == 60 {
      assert q as real <= x / 60.0 < q as real + 1.0;
    } else if d == 3600 {
      assert q as real <= x / 3600.0 < q as real + 1.0;
    } else {
      assert q as real <= x / 86400.0 < q as real + 1.0;
    }
  }

  /** The fractional part survives Python's float `%` unchanged: the whole
      part of `x % d` is `floor(x) % d`. */
  lemma ModOfFloor(x: real, d: nat)
    requires d == 60 || d == 3600 || d == 86400
    ensures Mod(x, d as real).Floor == x.Floor % d
  {
    FloorDivOfFloor(x, d);
    var q := x.Floor / d;
    assert Mod(x, d as real) == x - (q * d) as real;
  }

  /** The integer facts behind the decomposition of `w` whole seconds. */
  lemma IntegerParts(w: int)
    ensures var h := (w % 86400) / 3600;
      var m := (w % 3600) / 60;
      && 0 <= h < 24 && 0 <= m < 60
      && 86400 * (w / 86400) + 3600 * h + 60 * m <= w < 86400 * (w / 86400) + 3600 * h + 60 * m + 60
  {
    var d := w / 86400;
    var r1 := w % 86400;
    var h := r1 / 3600;
    var r2 := r1 % 3600;
    var m := r2 / 60;
    var r3 := r2 % 60;
    assert w == 86400 * d + r1;
    assert r1 == 3600 * h + r2 && 0 <= r2 < 3600;
    assert w == 3600 * (24 * d + h) + r2;
    HourRemainder(w, 24 * d + h, r2);
    assert r2 == 60 * m + r3 && 0 <= r3 < 60;
  }

  /** Whole seconds written as whole hours plus a remainder under an hour
      leave that remainder modulo 3600. */
  lemma HourRemainder(w: int, q: int, r: int)
    requires 0 <= r < 3600 && w == 3600 * q + r
    ensures w % 3600 == r
  {
    var q', r' := w / 3600, w % 3600;
    assert w == 3600 * q' + r' && 0 <= r' < 3600;
    assert q' == q;
  }

  /** One shown field: an amount and its unit letter. */
  type Field = (nat, char)

  /** The fields `format_uptime` shows: days, hours and minutes when there
      is at least one whole day, else hours and minutes when there is at
      least one whole hour, else the minutes alone. The minutes are always
      shown, and a field is left out only when it and every larger one are
      zero or less. */
  function Shown(p: Parts): (fs: seq<Field>)
    requires p.hours >= 0 && p.minutes >= 0
    ensures 1 <= |fs| <= 3 && fs[|fs| - 1] == (p.minutes as nat, 'm')
    ensures |fs| == 3 <==> p.days > 0
    ensures |fs| == 2 <==> p.days <= 0 && p.hours > 0
    ensures |fs| >= 2 ==> fs[|fs| - 2] == (p.hours as nat, 'h')
    ensures |fs| == 3 ==> fs[0] == (p.days as nat, 'd')
  {
    if p.days > 0 then [(p.days as nat, 'd'), (p.hours as nat, 'h'), (p.minutes as nat, 'm')]
    else if p.hours > 0 then [(p.hours as nat, 'h'), (p.minutes as nat, 'm')]
    else [(p.minutes as nat, 'm')]
  }

  /** Fields written "{n}{unit}" and separated by single spaces. */
  function Join(fs: seq<Field>): (t: string)
    requires |fs| > 0
    ensures |t| >= 3 * |fs| - 1
    ensures IsDigit(t[0]) && t[|t| - 1] == fs[|fs| - 1].1
  {
    if |fs| == 1 then Show(fs[0].0) + [fs[0].1]
    else Show(fs[0].0) + [fs[0].1] + " " + Join(fs[1..])
  }

  /** The text `format_uptime` returns for `s` elapsed seconds. It shows
      exactly the fields `Shown` chooses, always ends with the minutes, and
      it reads back as the days (zero when there
      is no whole day, also for a negative elapsed time), hours and
      minutes. */
  function Text(s: real): (t: string)
    ensures |t| > 0 && t[|t| - 1] == 'm'
    ensures Fields(t) == Some(Shown(Decompose(s)))
    ensures var p := Decompose(s);
      Parse(t) == Some(Parts(if p.days > 0 then p.days else 0, p.hours, p.minutes))
  {
    JoinRoundTrip(Shown(Decompose(s)));
    RenderRoundTrip(Decompose(s));
    Join(Shown(Decompose(s)))
  }

  /** Reads one "{n}{unit}" field and returns what follows it. */
  function ReadField(t: string): (r: Option<(nat, char, string)>)
    ensures r.Some? ==> |r.value.2| < |t|
  {
    var (digits, rest) := Span(t);
    if |digits| == 0 || |rest| == 0 then None
    else Some((ValueOf(digits), rest[0], rest[1..]))
  }

  /** Reads space-separated "{n}{unit}" fields up to the end of the text. */
  function Fields(t: string): Option<seq<Field>>
    decreases |t|
  {
    match ReadField(t)
    case None => None
    case Some((n, c, after)) =>
      if |after| == 0 then Some([(n, c)])
      else if after[0] != ' ' then None
      else
        match Fields(after[1..])
        case None => None
        case Some(more) => Some([(n, c)] + more)
  }

  /** Reads an uptime text back into days, hours and minutes; an omitted
      field reads as zero. */
  function Parse(t: string): Option<Parts> {
    match Fields(t)
    case None => None
    case Some(fs) =>
      if |fs| == 3 && fs[0].1 == 'd' && fs[1].1 == 'h' && fs[2].1 == 'm' then
        Some(Parts(fs[0].0, fs[1].0, fs[2].0))
      else if |fs| == 2 && fs[0].1 == 'h' && fs[1].1 == 'm' then
        Some(Parts(0, fs[0].0, fs[1].0))
      else if |fs| == 1 && fs[0].1 == 'm' then
        Some(Parts(0, 0, fs[0].0))
      else None
  }

  lemma ReadShownField(n: nat, c: char, rest: string)
    requires !IsDigit(c)
    ensures ReadField(Show(n) + [c] + rest) == Some((n, c, rest))
  {
    assert Show(n) + [c] + rest == Show(n) + ([c] + rest);
    SpanAt(Show(n), [c] + rest);
    ValueOfShow(n);
    assert ([c] + rest)[1..] == rest;
  }

  lemma LastFieldRoundTrip(n: nat, c: char)
    requires !IsDigit(c)
    ensures Fields(Show(n) + [c]) == Some([(n, c)])
  {
    assert Show(n) + [c] == Show(n) + [c] + "";
    ReadShownField(n, c, "");
  }

  /** A field, a space and text that reads as further fields reads as the
      field followed by them. */
  lemma FieldThenMore(n: nat, c: char, rest: string, more: seq<Field>)
    requires !IsDigit(c) && Fields(rest) == Some(more)
    ensures Fields(Show(n) + [c] + " " + rest) == Some([(n, c)] + more)
  {
    assert Show(n) + [c] + " " + rest == Show(n) + [c] + (" " + rest);
    ReadShownField(n, c, " " + rest);
    assert (" " + rest)[1..] == rest;
  }

  /** Joined fields whose units are not digits read back as the same fields. */
  lemma {:induction false} JoinRoundTrip(fs: seq<Field>)
    requires |fs| > 0
    requires forall i :: 0 <= i < |fs| ==> !IsDigit(fs[i].1)
    ensures Fields(Join(fs)) == Some(fs)
  {
    var (n, c) := fs[0];
    if |fs| == 1 {
      LastFieldRoundTrip(n, c);
      assert fs == [(n, c)];
    } else {
      JoinRoundTrip(fs[1..]);
      FieldThenMore(n, c, Join(fs[1..]), fs[1..]);
      assert [(n, c)] + fs[1..] == fs;
    }
  }

  /** The rendering loses nothing: reading it back gives the days, hours
      and minutes, with a non-positive day count read as the zero the text
      leaves out. */
  lemma RenderRoundTrip(p: Parts)
    requires p.hours >= 0 && p.minutes >= 0
    ensures Parse(Join(Shown(p))) == Some(Parts(if p.days > 0 then p.days else 0, p.hours, p.minutes))
  {
    JoinRoundTrip(Shown(p));
  }

  /** For a non-negative elapsed time the text gives back exactly the
      decomposition, so two elapsed times with different whole minutes never
      share a text. */
  lemma TextDeterminesParts(s: real)
    requires s >= 0.0
    ensures Parse(Text(s)) == Some(Decompose(s))
  {
    RenderRoundTrip(Decompose(s));
  }

  /** Under a minute of uptime reads "0m". */
  lemma UnderAMinute(s: real)
    requires 0.0 <= s < 60.0
    ensures Text(s) == "0m"
  {
    var p := Decompose(s);
    assert s.Floor < 60;
  }

  /** Worked value: 90000 s is one day and one hour, "1d 1h 0m". */
  lemma DayExample(s: real)
    requires s == 90000.0
    ensures Text(s) == "1d 1h 0m"
  {
    assert s.Floor == 90000;
    assert Decompose(s) == Parts(1, 1, 0);
    assert Shown(Parts(1, 1, 0)) == [(1, 'd'), (1, 'h'), (0, 'm')];
    DayJoin();
  }

  lemma DayJoin()
    ensures Join([(1, 'd'), (1, 'h'), (0, 'm')]) == "1d 1h 0m"
  {
    assert Show(1) == "1" && Show(0) == "0";
  }

  /** Worked value: 5400 s is "1h 30m". */
  lemma HourExample(s: real)
    requires s == 5400.0
    ensures Text(s) == "1h 30m"
  {
    assert s.Floor == 5400;
    assert Decompose(s) == Parts(0, 1, 30);
    assert Shown(Parts(0, 1, 30)) == [(1, 'h'), (30, 'm')];
    HourJoin();
  }

  lemma HourJoin()
    ensures Join([(1, 'h'), (30, 'm')]) == "1h 30m"
  {
    assert Show(1) == "1" && Show(30) == "30";
  }

  /** Worked value: a boot time 30 s in the future reads "23h 59m", not
      "0m", because the negative day count is never shown. */
  lemma FutureBootExample(s: real)
    requires s == -30.0
    ensures Text(s) == "23h 59m"
  {
    FutureBootParts(s);
    assert Shown(Parts(-1, 23, 59)) == [(23, 'h'), (59, 'm')];
    FutureBootJoin();
  }

  /** -30 s is day -1 at 23 hours and 59 minutes. */
  lemma FutureBootParts(s: real)
    requires s == -30.0
    ensures Decompose(s) == Parts(-1, 23, 59)
  {
    assert s.Floor == -30;
  }

  lemma FutureBootJoin()
    ensures Join([(23, 'h'), (59, 'm')]) == "23h 59m"
  {
    assert Show(23) == "23" && Show(59) == "59";
  }

  /** Worked value: a boot time 86370 s in the future reads "0m": day -1
      with 30 s left over, so no whole hour or minute. */
  lemma FarFutureBootExample(s: real)
    requires s == -86370.0
    ensures Text(s) == "0m"
  {
    assert s.Floor == -86370;
    assert Decompose(s) == Parts(-1, 0, 0);
    assert Shown(Parts(-1, 0, 0)) == [(0, 'm')];
    assert Show(0) == "0";
  }
}

=== FILE: wrappers.dfy ===
/** Optional values and results with an error, as used across the model. */
module Wrappers {

  /** A value that may be absent (Python's `None` or a missing key). */
  datatype Option<+T> = None | Some(value: T) {

    /** The wrapped value, or `default` when absent. */
    function GetOr(default: T): T {
      match this
      case Some(v) => v
      case None => default
    }
  }

  /** The outcome of an operation that may raise an error. */
  datatype Result<+R, +E> = Success(value: R) | Failure(error: E)
}
